=== FILE: README.md ===
# Task store: repository and service layers of a to-do API

This project models the core of a small to-do list API written in
JavaScript (Express and SQLite). It covers the two layers that hold the logic.

The **repository** (`TarefaRepository`) owns the one table of tasks
("tarefas"). Its operations are insert, exact-title lookup, lookup by id,
list, partial update and delete. It converts the stored 0/1 completion flag
to a boolean on the way out.

The **service** (`TarefaService`) adds the business rules on top of the
repository:
- title required, trimmed and unique on create;
- type and date checks on the request fields;
- an existence check before any update;
- a completion date stamped automatically when a patch marks a task done;
- no completion date earlier than the creation date;
- title uniqueness on rename;
- `concluirTarefa` refuses a task that is already completed.

Layout, one module per component:

- `jstext.dfy` (module `JsText`): JavaScript truthiness of JSON values, and
  `String.prototype.trim` over the ECMAScript white-space set.
- `taskmodel.dfy` (module `TaskModel`): the stored row and the task handed
  out, `_formatTarefa`, and the partial-update patch. It also holds the SET
  clauses a patch becomes and the reference meaning of a patch
  (`ApplyPatch`).
- `repository.dfy` (module `Repository`): class `TaskRepository`. The table
  is a `map<int, Row>` plus the AUTOINCREMENT counter `nextId`. A ghost set
  `issued` records every id ever handed out.
- `service.dfy` (module `Service`): the guards as predicates and functions,
  and class `TaskService`, which holds the repository.

Field names follow the columns: title = `titulo`, description = `descricao`,
createdAt = `dataCriacao`, completedAt = `dataConclusao`, completed =
`concluida`.

Abstractions:
- `new Date(text)` is the service's constant `parse: string -> Option<int>`;
  `None` stands for an invalid date (`isNaN`). `new Date(a) < new Date(b)`
  is `Earlier`, which is false when either date is invalid, as in JavaScript.
- `new Date().toISOString()` is a `now: string` argument.
- The update body is a `Patch` record. Each of the five columns is
  independently absent or supplied. For the nullable columns, `Some(None)`
  supplies an explicit null.
- When several rows share a title, `FindByTitle` returns any one of them,
  as SQLite's `db.get` does. `FindAll` returns the rows in an unspecified
  order.

Some rules that the service's own comments announce are not fully
enforced by its code. These are: a completion date whenever a task is
marked done (src/services/tarefaServices.js:76), completion not before
creation (:81), and a unique title on rename (:86). The model keeps the
code's behaviour and states these gaps:
- Title uniqueness on update. The rename guard compares the untrimmed new
  title with the current one but looks up the trimmed one, and it stores the
  untrimmed title. So two tasks can end up with the same title
  (`UntrimmedRenameDuplicatesTitle`). A PUT with `titulo: ""` also skips the
  guard at :87, because an empty string is falsy, and the empty title is
  stored. So two tasks renamed to `""` share it, and a task can hold the
  empty title that `criarTarefa` refuses at :11
  (`EmptyRenameDuplicatesTitle`). `UpdateTask` is proved to keep titles
  unique when the new title is already trimmed and non-empty.
- Completed implies dated. A date counts only when it is neither null nor
  `""`, as in the guards at src/services/tarefaServices.js:73, 77 and 82.
  An update that supplies `dataConclusao: null` or `dataConclusao: ""`
  with `concluida` absent leaves a completed task with no completion date
  (`ClearedCompletionDateUndatesTask`). With `concluida: false` the task is
  no longer completed, so the invariant still holds. Among the patch shapes the
  model represents, every other update keeps this invariant, and so do
  create, complete and delete, given a non-empty now. The code has one
  more escape, which the model's boolean-only patch cannot express. A truthy
  non-boolean flag such as `concluida: 1` fails the `=== true` test at
  src/services/tarefaServices.js:77, so no date is filled in. It is then
  stored as given (src/repositories/tarefaRepository.js:124-126) and reads
  back as completed, with no date.
- Completion not earlier than creation. The update guard compares against
  the creation date the task had before the update, even when the same
  patch changes `dataCriacao`. An update that changes only `dataCriacao` is
  never compared with the stored `dataConclusao`, because the guard at
  src/services/tarefaServices.js:82 needs a completion date in the patch.
  `concluirTarefa` (src/services/tarefaServices.js:113-118) stamps now
  without comparing it with `dataCriacao`. `criarTarefa` does not compare
  the two dates at all.
- One-way completion. Only `concluirTarefa` is one-way. An update patch
  may set `concluida` to false.
- An update with an empty patch on an existing task returns null, the same
  answer as for a missing task.

## Model

| member | source | states |
|---|---|---|
| JsText.Trim | src/services/tarefaServices.js:33-34 | trim leaves no white space at either end of its result |
| JsText.TrimIsSlice | src/services/tarefaServices.js:33-34 | the trimmed string is a slice of the original, and everything cut off is white space |
| JsText.TrimBlankIff | src/services/tarefaServices.js:11 | `titulo.trim() === ''` holds exactly when the title is all white space |
| JsText.TrimIdempotent | src/services/tarefaServices.js:25-33 | trimming a trimmed title changes nothing, so a title stored trimmed is found again by a later lookup of its trim |
| JsText.TrimKeepsTrimmed | src/services/tarefaServices.js:88 | a title with no white space at either end is its own trimmed form |
| TaskModel.FormatTask | src/repositories/tarefaRepository.js:18-27 | a missing row gives null; a row gives a task with the same id and fields, whose flag is false for 0 and true for any other value |
| TaskModel.SavedRowReadsBack | src/repositories/tarefaRepository.js:41-52 | the row inserted for a task reads back as that task: the 0/1 encoding of the flag round-trips |
| TaskModel.SetClausesApplyPatch | src/repositories/tarefaRepository.js:129-145 | running the SET clauses built from a patch overwrites exactly the supplied fields and keeps every other field |
| TaskModel.NoClausesIffEmpty | src/repositories/tarefaRepository.js:138-141 | a patch produces no SET clause exactly when it supplies no field |
| TaskModel.ApplyPatchLaws | src/repositories/tarefaRepository.js:138-145 | an empty patch leaves the row unchanged (the case the empty-SET test returns early on); a supplied title or flag is what the row then holds |
| Repository.TaskRepository.constructor | src/db/database.js:19-26 | the table starts empty, no id has been issued, and the first id will be 1 |
| Repository.TaskRepository.Save | src/repositories/tarefaRepository.js:35-56 | inserts the row with flag 1 iff the input flag is true; returns the input fields with an id greater than every id issued before; the counter invariant is kept |
| Repository.TaskRepository.FindByTitle | src/repositories/tarefaRepository.js:63-74 | returns a task of the table whose title equals the argument exactly, or null exactly when no row has that title |
| Repository.TaskRepository.FindAll | src/repositories/tarefaRepository.js:80-92 | returns one formatted task per row: same count, every row present, no id twice |
| Repository.TaskRepository.FindById | src/repositories/tarefaRepository.js:99-110 | returns the formatted row with that id, or null exactly when there is none |
| Repository.TaskRepository.SetClauses | src/repositories/tarefaRepository.js:123-136 | the loop over the patch's keys builds one clause per supplied column, in column order, with the flag bound as 0/1 |
| Repository.TaskRepository.Update | src/repositories/tarefaRepository.js:118-172 | an empty patch or a missing id gives null and changes nothing; otherwise only the supplied fields of that row change, no other row changes, and the refreshed row is returned |
| Repository.TaskRepository.Delete | src/repositories/tarefaRepository.js:179-190 | returns true iff the row existed; afterwards that row is gone and every other row is unchanged |
| Repository.SaveThenFind | src/repositories/tarefaRepository.js:35-110 | after an insert, looking up the returned id returns the inserted task |
| Repository.DeleteThenFind | src/repositories/tarefaRepository.js:179-188 | after a delete, looking up the id returns null and every other row is unchanged |
| Service.CreateError | src/services/tarefaServices.js:11-22 | the guards in their order; whatever passes has a text title and a description that is text or falsy, so it can be normalized |
| Service.CreateGuards | src/services/tarefaServices.js:11-22 | create input passes the guards iff the title is a non-blank string, the description is a string or falsy, and each date is absent, empty or valid; a bad title is the error reported first; every error is one of the four input errors |
| Service.NormalizedTask | src/services/tarefaServices.js:32-38 | the task to save has a trimmed, non-empty title and a trimmed description when one was given; it is not completed; it has a completion date only when one was given; its creation date is valid when now is |
| Service.FillCompletedAt | src/services/tarefaServices.js:77-80 | a patch with `concluida === true` and a falsy `dataConclusao` gets `dataConclusao = now`; any other patch is unchanged, and no other field ever changes |
| Service.UpdateKeepsUniqueTitles | src/services/tarefaServices.js:87-92 | an update whose title is the row's own, or belongs to no other row, keeps all titles distinct |
| Service.UpdateKeepsCompletionDated | src/services/tarefaServices.js:73-80 | an update that supplies a date, neither null nor empty, whenever it marks the task completed, and no null or empty date while leaving the flag as it is, keeps every completed row dated |
| Service.TaskService.constructor | src/services/tarefaServices.js:5-7 | the service holds the given repository |
| Service.TaskService.CreateTask | src/services/tarefaServices.js:9-45 | a guard failure, or a trimmed title already in use, returns that error and inserts nothing; otherwise the normalized task is saved under a fresh id; unique titles and dated completions are preserved |
| Service.TaskService.ListTasks | src/services/tarefaServices.js:49-53 | returns one task per row of the table |
| Service.TaskService.GetTask | src/services/tarefaServices.js:55-57 | returns the task with that id, or null exactly when there is none |
| Service.TaskService.RenameRefused | src/services/tarefaServices.js:87-92 | refuses only a truthy, changed title whose trimmed form is held by another task; refuses always when the trimmed form differs from the current title and another task holds it |
| Service.TaskService.UpdateTask | src/services/tarefaServices.js:59-101 | a missing id returns null before any check. Every error is one of the three update errors, each date error comes only from its own cause. An unparseable completion date, or one earlier than the current creation date, fails and changes nothing; so does a title held by another task. Otherwise the filled patch is applied. Marking done without a date stamps now, and now is not earlier than the creation date; unique titles are kept for a trimmed, non-empty new title, and dated completions unless the patch clears the completion date with `concluida` absent |
| Service.TaskService.CompleteTask | src/services/tarefaServices.js:103-120 | a missing id returns null; a completed task fails and nothing changes; otherwise only that row changes, to completed with completion date now; titles stay unique and completed tasks stay dated |
| Service.TaskService.DeleteTask | src/services/tarefaServices.js:122-125 | returns true iff the task existed; it is removed and no other task changes |
| Service.CompleteTwice | src/services/tarefaServices.js:103-119 | completing a pending task succeeds, and once completing has succeeded, a second call fails with AlreadyCompleted |
| Service.CreateSameTitleTwice | src/services/tarefaServices.js:25-29 | of two valid create requests whose titles trim to the same text, the second fails as a duplicate |
| Service.DeleteThenGet | src/services/tarefaServices.js:122-125 | after deleting a task, getting it returns null |
| Service.UntrimmedRenameDuplicatesTitle | src/services/tarefaServices.js:87-92 | renaming to an untrimmed title that another task already holds passes the guard and leaves two tasks with the same title |
| Service.EmptyRenameDuplicatesTitle | src/services/tarefaServices.js:87-97 | renaming two tasks to the empty title skips the rename guard both times and leaves them sharing a title that create would refuse |
| Service.ClearedCompletionDateUndatesTask | src/services/tarefaServices.js:73-92 | a patch that only sets the completion date to null or "" passes every update guard and leaves a completed task with no completion date |

## Left out

- Storage failures. Every repository call can reject with an error (connection failure, constraint violation, unknown column); the model's storage never fails, so those error paths are not modelled.
- Asynchrony and interleaving. Operations are modelled as sequential steps. The race between the title lookup and the insert of two concurrent creates is not modelled.
- Logging (`console.log`, `console.error`) and the HTTP controller, routing and status codes: outside the core.
- src/db/database.js: opening the connection, creating the table and seeding three tasks are bootstrap. Only the AUTOINCREMENT id behaviour (line 20) is modelled, by the repository's counter.
- Request bodies of other shapes. The patch has exactly the five columns, each with its column type. A body key that names no column (an SQL error), an `id` key, a non-string title (a TypeError at `.trim()`) and a non-boolean `concluida` are not represented. In create requests, dates are strings or absent, so `new Date(number)` is not modelled.
- JavaScript numbers are integers in `Json`; NaN, -0 and fractions are not represented.
- Real date parsing and the clock: abstracted as `parse` and `now`.
- The in-place writes to the caller's patch object (`dadosAtualizacao.concluida` rewritten to 0/1, `dadosAtualizacao.dataConclusao` set to now) are modelled as new patch values handed on. No caller reads the object afterwards.
- Service.TaskService.UpdateTask: two results hold only when `now` is a non-empty string, which `toISOString` always returns. These are that the automatic completion date is not earlier than the creation date, and that completed tasks stay dated. The postconditions carry that hypothesis.
- Service.TaskService.CompleteTask: is proved to keep completed tasks dated only for a non-empty `now`, for the same reason.
- Service.TaskService.UpdateTask: when the new trimmed title equals the task's own title and another task also holds it, which task the lookup finds is left open. So the result there is either success or DuplicateTitleOnRename, without saying which.
- Repository.TaskRepository.SetClauses: builds the clauses in column order. The source's `for...in` loop (src/repositories/tarefaRepository.js:131) follows the key order of the request body. The resulting row is the same, since each column appears at most once in the SET list.
- The dead modules src/services/tarefaService.js and src/controllers/tarefacontrollers.js, and the bootstrap src/todolist.js, are not part of this model.

=== FILE: jstext.dfy ===
/** The two pieces of JavaScript value semantics the task store relies on:
    truthiness of request-body values, and String.prototype.trim. */
module JsText {

  /** A value as it arrives in a parsed JSON request body. Numbers are
      modelled as integers; NaN, -0 and fractions are not represented. */
  datatype Json = Undefined | Null | Bool(b: bool) | Number(n: int) | Text(s: string) | Composite

  /** JavaScript truthiness: what `if (v)` and `v && ...` test. */
  predicate Truthy(v: Json) {
    match v
    case Undefined => false
    case Null => false
    case Bool(b) => b
    case Number(n) => n != 0
    case Text(s) => s != ""
    case Composite => true
  }

  /** The ECMAScript WhiteSpace and LineTerminator code points, the ones
      String.prototype.trim removes. */
  predicate IsWhiteSpace(c: char) {
    || c == ' ' || c == '\t' || c == '\n' || c == '\r'
    || c == '\U{000B}' || c == '\U{000C}' || c == '\U{00A0}' || c == '\U{FEFF}'
    || c == '\U{1680}' || ('\U{2000}' <= c <= '\U{200A}')
    || c == '\U{2028}' || c == '\U{2029}' || c == '\U{202F}' || c == '\U{205F}' || c == '\U{3000}'
  }

  /** Neither end of s is white space. */
  predicate IsTrimmed(s: string) {
    s == [] || (!IsWhiteSpace(s[0]) && !IsWhiteSpace(s[|s| - 1]))
  }

  predicate AllWhiteSpace(s: string) {
    forall i | 0 <= i < |s| :: IsWhiteSpace(s[i])
  }

  /** The first index at or after i whose character is not white space,
      or |s| when there is none. */
  function SkipStart(s: string, i: nat): (n: nat)
    requires i <= |s|
    ensures i <= n <= |s|
    ensures forall k | i <= k < n :: IsWhiteSpace(s[k])
    ensures n == |s| || !IsWhiteSpace(s[n])
    decreases |s| - i
  {
    if i < |s| && IsWhiteSpace(s[i]) then SkipStart(s, i + 1) else i
  }

  /** The end of s[lo..j] once its trailing white space is dropped. */
  function SkipEnd(s: string, lo: nat, j: nat): (n: nat)
    requires lo <= j <= |s|
    ensures lo <= n <= j
    ensures forall k | n <= k < j :: IsWhiteSpace(s[k])
    ensures n == lo || !IsWhiteSpace(s[n - 1])
    decreases j
  {
    if lo < j && IsWhiteSpace(s[j - 1]) then SkipEnd(s, lo, j - 1) else j
  }

  /** String.prototype.trim: s without the white space at either end. */
  function Trim(s: string): (r: string)
    ensures IsTrimmed(r)
  {
    var lo := SkipStart(s, 0);
    s[lo..SkipEnd(s, lo, |s|)]
  }

  /** What trim removes is white space and only white space: its result is
      the slice s[lo..hi] with nothing but white space outside it. */
  lemma TrimIsSlice(s: string)
    ensures exists lo, hi | 0 <= lo <= hi <= |s| ::
      Trim(s) == s[lo..hi] && AllWhiteSpace(s[..lo]) && AllWhiteSpace(s[hi..])
  {
    var lo := SkipStart(s, 0);
    var hi := SkipEnd(s, lo, |s|);
    assert AllWhiteSpace(s[..lo]);
    assert AllWhiteSpace(s[hi..]);
  }

  /** A string that is already trimmed is its own trim. */
  lemma TrimKeepsTrimmed(s: string)
    requires IsTrimmed(s)
    ensures Trim(s) == s
  {
    if s != [] {
      assert SkipStart(s, 0) == 0;
      assert SkipEnd(s, 0, |s|) == |s|;
    }
    assert s[0..|s|] == s;
  }

  /** Trimming twice is trimming once. */
  lemma TrimIdempotent(s: string)
    ensures Trim(Trim(s)) == Trim(s)
  {
    TrimKeepsTrimmed(Trim(s));
  }

  /** A string trims to "" exactly when it is all white space: the test
      behind `titulo.trim() === ''`. */
  lemma TrimBlankIff(s: string)
    ensures Trim(s) == "" <==> AllWhiteSpace(s)
  {
    var lo := SkipStart(s, 0);
    if AllWhiteSpace(s) && lo < |s| {
      assert false;
    }
  }
}

=== FILE: repository.dfy ===
/** TarefaRepository: the data-access layer over the single "tarefas" table.
    The table is a map from id to row; ids come from an AUTOINCREMENT
    counter, so an id once handed out is never handed out again, even after
    its row is deleted. */
module Repository {
  import opened TaskModel

  class TaskRepository {
    /** The rows of the table, by id. */
    var rows: map<int, Row>
    /** The id the next insert receives. */
    var nextId: int
    /** Every id ever handed out, including those of deleted rows. */
    ghost var issued: set<int>

    ghost predicate Valid()
      reads this
    {
      && 1 <= nextId
      && rows.Keys <= issued
      && (forall id | id in issued :: 1 <= id < nextId)
    }

    /** An empty table whose first id will be 1. */
    constructor ()
      ensures Valid()
      ensures rows == map[] && issued == {} && nextId == 1
    {
      rows := map[];
      nextId := 1;
      issued := {};
    }

    /** `salvar`: inserts a row for data and returns data with its new id,
        an id no earlier insert ever received. */
    method Save(data: NewTask) returns (t: Task)
      requires Valid()
      modifies this
      ensures Valid()
      ensures t.id !in old(issued) && issued == old(issued) + {t.id}
      ensures forall id | id in old(issued) :: id < t.id
      ensures rows == old(rows)[t.id := RowOf(data)]
      ensures t == TaskOf(t.id, data)
    {
      var id := nextId;
      rows := rows[id := RowOf(data)];
      nextId := nextId + 1;
      issued := issued + {id};
      var formatted := FormatTask(id, Some(Row(data.title, data.description, data.createdAt, data.completedAt, FlagToInt(data.completed))));
      t := formatted.value;
    }

    /** `buscarPorTitulo`: a task whose title is exactly title, or None when
        no row has it. When several rows share the title, which one comes
        back is up to the storage. */
    method FindByTitle(title: string) returns (t: Option<Task>)
      ensures t.None? <==> forall id | id in rows :: rows[id].title != title
      ensures t.Some? ==> t.value.id in rows && t.value == ToTask(t.value.id, rows[t.value.id])
      ensures t.Some? ==> t.value.title == title
    {
      if exists id | id in rows :: rows[id].title == title {
        var id :| id in rows && rows[id].title == title;
        t := FormatTask(id, Some(rows[id]));
      } else {
        t := None;
      }
    }

    /** `buscarTodos`: one formatted task per row, in an order the storage
        chooses. */
    method FindAll() returns (tasks: seq<Task>)
      ensures |tasks| == |rows|
      ensures forall i | 0 <= i < |tasks| :: tasks[i].id in rows && tasks[i] == ToTask(tasks[i].id, rows[tasks[i].id])
      ensures forall id | id in rows :: exists i | 0 <= i < |tasks| :: tasks[i].id == id
      ensures forall i, j | 0 <= i < j < |tasks| :: tasks[i].id != tasks[j].id
    {
      tasks := [];
      var pending := rows.Keys;
      while pending != {}
        invariant pending <= rows.Keys
        invariant |tasks| + |pending| == |rows.Keys|
        invariant forall i | 0 <= i < |tasks| :: tasks[i].id in rows.Keys - pending && tasks[i] == ToTask(tasks[i].id, rows[tasks[i].id])
        invariant forall id | id in rows.Keys - pending :: exists i | 0 <= i < |tasks| :: tasks[i].id == id
        invariant forall i, j | 0 <= i < j < |tasks| :: tasks[i].id != tasks[j].id
        decreases pending
      {
        var id := AnyOf(pending);
        ghost var before, wasPending := tasks, pending;
        tasks := tasks + [ToTask(id, rows[id])];
        pending := pending - {id};
        forall k | k in rows.Keys - pending
          ensures exists i | 0 <= i < |tasks| :: tasks[i].id == k
        {
          if k == id {
            assert tasks[|tasks| - 1].id == k;
          } else {
            assert k in rows.Keys - wasPending;
            var i :| 0 <= i < |before| && before[i].id == k;
            assert tasks[i].id == k;
          }
        }
      }
      assert |rows.Keys| == |rows|;
      assert rows.Keys - pending == rows.Keys;
    }

    /** `buscarPorId`: the task with that id, or None. */
    method FindById(id: int) returns (t: Option<Task>)
      ensures t.Some? <==> id in rows
      ensures t.Some? ==> t.value == ToTask(id, rows[id])
    {
      var row := if id in rows then Some(rows[id]) else None;
      t := FormatTask(id, row);
    }

    /** The SET clauses of the UPDATE statement: one per supplied field, in
        column order, with the flag bound as 0/1. */
    static method SetClauses(patch: Patch) returns (clauses: seq<Assignment>)
      ensures clauses == SetList(patch)
    {
      clauses := [];
      var i := 0;
      while i < |Columns|
        invariant 0 <= i <= |Columns|
        invariant clauses == ClausesUpTo(patch, i)
      {
        match ClauseFor(patch, Columns[i]) {
          case Some(a) => clauses := clauses + [a];
          case None =>
        }
        i := i + 1;
      }
    }

    /** `atualizar`: with no supplied field, nothing happens and None comes
        back; otherwise the supplied fields of row id are overwritten and the
        refreshed task comes back, or None when there is no such row. */
    method Update(id: int, patch: Patch) returns (t: Option<Task>)
      requires Valid()
      modifies this
      ensures Valid() && nextId == old(nextId) && issued == old(issued)
      ensures patch.IsEmpty() || id !in old(rows) ==> t.None? && rows == old(rows)
      ensures !patch.IsEmpty() && id in old(rows) ==>
        && rows == old(rows)[id := ApplyPatch(old(rows)[id], patch)]
        && t == Some(ToTask(id, rows[id]))
    {
      var clauses := SetClauses(patch);
      NoClausesIffEmpty(patch);
      if |clauses| == 0 {
        return None;
      }
      if id in rows {
        SetClausesApplyPatch(rows[id], patch);
        rows := rows[id := AssignAll(rows[id], clauses)];
        t := FormatTask(id, Some(rows[id]));
      } else {
        t := None;
      }
    }

    /** `deletar`: removes row id; true exactly when there was one. */
    method Delete(id: int) returns (removed: bool)
      requires Valid()
      modifies this
      ensures Valid() && nextId == old(nextId) && issued == old(issued)
      ensures removed <==> id in old(rows)
      ensures rows == old(rows) - {id}
    {
      removed := id in rows;
      rows := rows - {id};
    }
  }

  /** Some element of a non-empty set of ids. */
  method AnyOf(s: set<int>) returns (x: int)
    requires s != {}
    ensures x in s
  {
    assert exists y :: y in s by {
      if forall y :: y !in s {
        assert false;
      }
    }
    x :| x in s;
  }

  /** Inserting and then reading back by the returned id gives back the
      task that was inserted. */
  method SaveThenFind(repo: TaskRepository, data: NewTask) returns (saved: Task, found: Option<Task>)
    requires repo.Valid()
    modifies repo
    ensures repo.Valid()
    ensures found == Some(saved)
    ensures saved == TaskOf(saved.id, data)
  {
    saved := repo.Save(data);
    found := repo.FindById(saved.id);
  }

  /** After a delete, the id is gone and every other row is as it was. */
  method DeleteThenFind(repo: TaskRepository, id: int) returns (found: Option<Task>)
    requires repo.Valid()
    modifies repo
    ensures repo.Valid()
    ensures found.None?
    ensures forall k | k in old(repo.rows) && k != id :: k in repo.rows && repo.rows[k] == old(repo.rows)[k]
  {
    var _ := repo.Delete(id);
    found := repo.FindById(id);
  }
}

=== FILE: service.dfy ===
/** TarefaService: the business rules on top of the repository. Every
    validation happens before the repository is asked to change anything, so
    a failed call leaves the table as it was.

    `new Date(text)` is the service's `parse` function (None for an invalid
    date), and `new Date().toISOString()` is the `now` argument. */
module Service {
  import opened JsText
  import opened TaskModel
  import opened Repository

  /** The errors the service throws, one per `throw` in the source. */
  datatype Failure =
    | TitleRequired
    | DescriptionNotText
    | InvalidCreatedAt
    | InvalidCompletedAt
    | DuplicateTitle
    | CompletedBeforeCreated
    | DuplicateTitleOnRename
    | AlreadyCompleted

  datatype Result<T> = Ok(value: T) | Err(failure: Failure)

  /** What `new Date(text)` makes of a text: a timestamp, or None for an
      invalid date. */
  type DateParser = string -> Option<int>

  /** The body of a create request. The title and the description are
      type-checked by the service, so they keep their JSON type; a date is
      None when it is absent or null. */
  datatype CreateInput = CreateInput(title: Json, description: Json, createdAt: Option<string>, completedAt: Option<string>)

  /** A date that is truthy: present and not "". */
  predicate Supplied(d: Option<string>) {
    d.Some? && d.value != ""
  }

  /** A truthy date that `new Date` rejects. */
  predicate Unparseable(parse: DateParser, d: Option<string>) {
    Supplied(d) && parse(d.value).None?
  }

  /** `new Date(a) < new Date(b)`: false whenever either date is invalid. */
  predicate Earlier(parse: DateParser, a: string, b: string) {
    parse(a).Some? && parse(b).Some? && parse(a).value < parse(b).value
  }

  /** Some row holds exactly this title. */
  ghost predicate TitleInUse(rows: map<int, Row>, title: string) {
    exists id | id in rows :: rows[id].title == title
  }

  /** A row other than id holds exactly this title. */
  ghost predicate TitleHeldByOther(rows: map<int, Row>, title: string, id: int) {
    exists k | k in rows :: k != id && rows[k].title == title
  }

  /** No two rows share a title. */
  ghost predicate UniqueTitles(rows: map<int, Row>) {
    forall a, b | a in rows && b in rows && a != b :: rows[a].title != rows[b].title
  }

  /** Every completed row has a completion date that is neither null nor
      empty, the only dates the service's guards treat as present. */
  ghost predicate CompletionDated(rows: map<int, Row>) {
    forall id | id in rows :: rows[id].completed != 0 ==> Supplied(rows[id].completedAt)
  }

  /** The title check of `criarTarefa`: a text title that is not blank. */
  predicate TitleGiven(title: Json) {
    title.Text? && !AllWhiteSpace(title.s)
  }

  /** A create request the guards let through: a title given, a description
      that is text or falsy, and dates that are absent, empty or valid. */
  predicate AcceptableInput(input: CreateInput, parse: DateParser) {
    && TitleGiven(input.title)
    && (input.description.Text? || !Truthy(input.description))
    && !Unparseable(parse, input.createdAt)
    && !Unparseable(parse, input.completedAt)
  }

  /** The guards of `criarTarefa`, in their order: the first one that fails
      decides the error. Whatever passes has a text title and a description
      that is text or falsy, so it can be normalized. */
  function CreateError(input: CreateInput, parse: DateParser): (e: Option<Failure>)
    ensures e.None? ==> input.title.Text? && (input.description.Text? || !Truthy(input.description))
  {
    if !Truthy(input.title) || !input.title.Text? || Trim(input.title.s) == "" then Some(TitleRequired)
    else if Truthy(input.description) && !input.description.Text? then Some(DescriptionNotText)
    else if Unparseable(parse, input.createdAt) then Some(InvalidCreatedAt)
    else if Unparseable(parse, input.completedAt) then Some(InvalidCompletedAt)
    else None
  }

  /** The create guards accept exactly the acceptable requests; a title
      that is missing, not text or blank is the first error reported, and
      every error is one of the four input errors. */
  lemma CreateGuards(input: CreateInput, parse: DateParser)
    ensures CreateError(input, parse).None? <==> AcceptableInput(input, parse)
    ensures CreateError(input, parse) == Some(TitleRequired) <==> !TitleGiven(input.title)
    ensures CreateError(input, parse).Some? ==>
      CreateError(input, parse).value in {TitleRequired, DescriptionNotText, InvalidCreatedAt, InvalidCompletedAt}
  {
    if input.title.Text? {
      var s := input.title.s;
      TrimBlankIff(s);
      if s == "" {
        assert AllWhiteSpace(s);
      }
    }
  }

  /** The task `criarTarefa` hands to `salvar`: trimmed title, trimmed
      description or null, the creation date or now, the completion date or
      null, and not completed. */
  function Normalize(input: CreateInput, now: string): NewTask
    requires input.title.Text?
    requires input.description.Text? || !Truthy(input.description)
  {
    NewTask(
      Trim(input.title.s),
      if Truthy(input.description) then Some(Trim(input.description.s)) else None,
      if Supplied(input.createdAt) then input.createdAt.value else now,
      if Supplied(input.completedAt) then Some(input.completedAt.value) else None,
      false)
  }

  /** What an accepted create request stores: a non-empty trimmed title, a
      trimmed description exactly when one was given, an unfinished task,
      a valid creation date whenever now is valid, and a completion date only
      when one was given. */
  lemma NormalizedTask(input: CreateInput, parse: DateParser, now: string)
    requires AcceptableInput(input, parse)
    ensures var t := Normalize(input, now);
      && t.title != "" && IsTrimmed(t.title)
      && (t.description.Some? <==> Truthy(input.description))
      && (t.description.Some? ==> IsTrimmed(t.description.value))
      && !t.completed
      && (t.completedAt.Some? <==> Supplied(input.completedAt))
      && (parse(now).Some? ==> parse(t.createdAt).Some?)
  {
    TrimBlankIff(input.title.s);
  }

  /** `dataConclusao` in an update patch is truthy. */
  predicate CompletionSupplied(patch: Patch) {
    patch.completedAt.Some? && Supplied(patch.completedAt.value)
  }

  /** The first guard of `atualizarTarefa`: a truthy completion date that
      is not a valid date. */
  predicate CompletedAtUnparseable(patch: Patch, parse: DateParser) {
    patch.completedAt.Some? && Unparseable(parse, patch.completedAt.value)
  }

  /** Marking a task done without a truthy completion date stamps it with
      now; any other patch passes through unchanged. */
  function FillCompletedAt(patch: Patch, now: string): (p: Patch)
    ensures p.(completedAt := patch.completedAt) == patch
    ensures patch.completed == Some(true) ==> p.completedAt.Some? && p.completedAt.value.Some?
    ensures patch.completed == Some(true) && !CompletionSupplied(patch) ==> p.completedAt == Some(Some(now))
    ensures patch.completed != Some(true) || CompletionSupplied(patch) ==> p == patch
  {
    if patch.completed == Some(true) && !CompletionSupplied(patch) then
      patch.(completedAt := Some(Some(now)))
    else
      patch
  }

  /** The patch sets the completion date to null or "" and leaves the
      completion flag as it is, so no date is filled in for it. */
  predicate ClearsCompletionDate(patch: Patch) {
    patch.completedAt.Some? && patch.completed.None? && !Supplied(patch.completedAt.value)
  }

  /** The second guard: the (possibly filled) completion date is earlier
      than the creation date the task has now. */
  predicate CompletionPrecedesCreation(patch: Patch, current: Task, parse: DateParser) {
    CompletionSupplied(patch) && current.createdAt != "" &&
    Earlier(parse, patch.completedAt.value.value, current.createdAt)
  }

  /** Whether the title is checked for uniqueness: a truthy title different
      from the current one. */
  predicate RenameChecked(patch: Patch, current: Task) {
    patch.title.Some? && patch.title.value != "" && patch.title.value != current.title
  }

  /** An update keeps titles unique when its title, if any, is the row's
      own or held by no other row. */
  lemma UpdateKeepsUniqueTitles(rows: map<int, Row>, id: int, p: Patch)
    requires UniqueTitles(rows) && id in rows
    requires p.title.Some? ==> p.title.value == rows[id].title || !TitleHeldByOther(rows, p.title.value, id)
    ensures UniqueTitles(rows[id := ApplyPatch(rows[id], p)])
  {
    var after := rows[id := ApplyPatch(rows[id], p)];
    forall a, b | a in after && b in after && a != b
      ensures after[a].title != after[b].title
    {
      if a == id || b == id {
        var other := if a == id then b else a;
        assert after[other] == rows[other];
      } else {
        assert after[a] == rows[a] && after[b] == rows[b];
      }
    }
  }

  /** An update keeps every completed row dated when it supplies a date,
      neither null nor empty, whenever it marks the row completed, and
      supplies no such empty date while leaving the flag as it is. An update
      that marks the row not completed may clear its date. */
  lemma UpdateKeepsCompletionDated(rows: map<int, Row>, id: int, p: Patch)
    requires CompletionDated(rows) && id in rows
    requires p.completed == Some(true) ==> p.completedAt.Some? && Supplied(p.completedAt.value)
    requires p.completedAt.Some? && p.completed.None? ==> Supplied(p.completedAt.value)
    ensures CompletionDated(rows[id := ApplyPatch(rows[id], p)])
  {
    var after := rows[id := ApplyPatch(rows[id], p)];
    forall k | k in after && after[k].completed != 0
      ensures Supplied(after[k].completedAt)
    {
      if k != id {
        assert after[k] == rows[k];
      }
    }
  }

  class TaskService {
    const repo: TaskRepository
    const parse: DateParser

    ghost predicate Valid()
      reads this, repo
    {
      repo.Valid()
    }

    constructor (repo: TaskRepository, parse: DateParser)
      requires repo.Valid()
      ensures Valid()
      ensures this.repo == repo && this.parse == parse
    {
      this.repo := repo;
      this.parse := parse;
    }

    /** `criarTarefa`: validates, rejects a title already in use after
        trimming, and saves the normalized task under a fresh id. */
    method CreateTask(input: CreateInput, now: string) returns (r: Result<Task>)
      requires Valid()
      modifies repo
      ensures Valid()
      ensures r.Err? ==> unchanged(repo)
      ensures CreateError(input, parse).Some? ==> r == Err(CreateError(input, parse).value)
      ensures CreateError(input, parse).None? && TitleInUse(old(repo.rows), Trim(input.title.s)) ==>
        r == Err(DuplicateTitle)
      ensures CreateError(input, parse).None? && !TitleInUse(old(repo.rows), Trim(input.title.s)) ==>
        && r.Ok?
        && r.value.id !in old(repo.issued)
        && repo.rows == old(repo.rows)[r.value.id := RowOf(Normalize(input, now))]
        && r.value == TaskOf(r.value.id, Normalize(input, now))
      ensures UniqueTitles(old(repo.rows)) ==> UniqueTitles(repo.rows)
      ensures CompletionDated(old(repo.rows)) ==> CompletionDated(repo.rows)
    {
      var e := CreateError(input, parse);
      if e.Some? {
        return Err(e.value);
      }
      var title := Trim(input.title.s);
      var existing := repo.FindByTitle(title);
      if existing.Some? {
        return Err(DuplicateTitle);
      }
      var data := Normalize(input, now);
      var created := repo.Save(data);
      r := Ok(created);
    }

    /** `listarTodasTarefas`: every task, one per row. */
    method ListTasks() returns (tasks: seq<Task>)
      requires Valid()
      ensures |tasks| == |repo.rows|
      ensures forall i | 0 <= i < |tasks| :: tasks[i].id in repo.rows && tasks[i] == ToTask(tasks[i].id, repo.rows[tasks[i].id])
      ensures forall id | id in repo.rows :: exists i | 0 <= i < |tasks| :: tasks[i].id == id
    {
      tasks := repo.FindAll();
    }

    /** `buscarTarefaPorId`: the task, or None when there is none. */
    method GetTask(id: int) returns (t: Option<Task>)
      requires Valid()
      ensures t.Some? <==> id in repo.rows
      ensures t.Some? ==> t.value == ToTask(id, repo.rows[id])
    {
      t := repo.FindById(id);
    }

    /** The rename guard of `atualizarTarefa`: a truthy title that differs
        from the current one is looked up trimmed, and the update is refused
        when the task found is another one. */
    method RenameRefused(id: int, patch: Patch) returns (refused: bool)
      requires id in repo.rows
      ensures var current := ToTask(id, repo.rows[id]);
        && (refused ==> RenameChecked(patch, current) && TitleHeldByOther(repo.rows, Trim(patch.title.value), id))
        && ((RenameChecked(patch, current) && Trim(patch.title.value) != current.title &&
             TitleHeldByOther(repo.rows, Trim(patch.title.value), id)) ==> refused)
    {
      refused := false;
      var current := ToTask(id, repo.rows[id]);
      if RenameChecked(patch, current) {
        var holder := repo.FindByTitle(Trim(patch.title.value));
        refused := holder.Some? && holder.value.id != id;
      }
    }

    /** `atualizarTarefa`: None for a missing task before any validation;
        then the completion-date guards, the stamping of a completion date,
        the rename guard, and finally the repository update. */
    method UpdateTask(id: int, patch: Patch, now: string) returns (r: Result<Option<Task>>)
      requires Valid()
      modifies repo
      ensures Valid()
      ensures r.Err? ==> unchanged(repo)
      ensures id !in old(repo.rows) ==> r == Ok(None) && unchanged(repo)
      ensures id in old(repo.rows) ==>
        var current := ToTask(id, old(repo.rows)[id]);
        var filled := FillCompletedAt(patch, now);
        && (CompletedAtUnparseable(patch, parse) ==> r == Err(InvalidCompletedAt))
        && (!CompletedAtUnparseable(patch, parse) && CompletionPrecedesCreation(filled, current, parse) ==>
              r == Err(CompletedBeforeCreated))
        && (r == Err(DuplicateTitleOnRename) ==>
              RenameChecked(filled, current) && TitleHeldByOther(old(repo.rows), Trim(filled.title.value), id))
        && (!CompletedAtUnparseable(patch, parse) && !CompletionPrecedesCreation(filled, current, parse) &&
            RenameChecked(filled, current) && Trim(filled.title.value) != current.title &&
            TitleHeldByOther(old(repo.rows), Trim(filled.title.value), id) ==>
              r == Err(DuplicateTitleOnRename))
        && (!CompletedAtUnparseable(patch, parse) && !CompletionPrecedesCreation(filled, current, parse) &&
            !(RenameChecked(filled, current) && TitleHeldByOther(old(repo.rows), Trim(filled.title.value), id)) ==>
              r.Ok?)
        && (r.Err? ==> r.failure in {InvalidCompletedAt, CompletedBeforeCreated, DuplicateTitleOnRename})
        && (r == Err(InvalidCompletedAt) ==> CompletedAtUnparseable(patch, parse))
        && (r == Err(CompletedBeforeCreated) ==> CompletionPrecedesCreation(filled, current, parse))
        && (r.Ok? && filled.IsEmpty() ==> r.value.None? && repo.rows == old(repo.rows))
        && (r.Ok? && !filled.IsEmpty() ==>
              && repo.rows == old(repo.rows)[id := ApplyPatch(old(repo.rows)[id], filled)]
              && r.value == Some(ToTask(id, repo.rows[id])))
      ensures id in old(repo.rows) && r.Ok? && r.value.Some? && patch.completed == Some(true) && !CompletionSupplied(patch) && now != "" ==>
        && r.value.value.completed
        && r.value.value.completedAt == Some(now)
        && (old(repo.rows)[id].createdAt == "" || !Earlier(parse, now, old(repo.rows)[id].createdAt))
      ensures UniqueTitles(old(repo.rows)) && (patch.title.Some? ==> patch.title.value != "" && IsTrimmed(patch.title.value)) ==>
        UniqueTitles(repo.rows)
      ensures CompletionDated(old(repo.rows)) && now != "" && !ClearsCompletionDate(patch) ==> CompletionDated(repo.rows)
    {
      var existing := repo.FindById(id);
      if existing.None? {
        return Ok(None);
      }
      var current := existing.value;
      if CompletedAtUnparseable(patch, parse) {
        return Err(InvalidCompletedAt);
      }
      var filled := FillCompletedAt(patch, now);
      if CompletionPrecedesCreation(filled, current, parse) {
        return Err(CompletedBeforeCreated);
      }
      var refused := RenameRefused(id, filled);
      if refused {
        return Err(DuplicateTitleOnRename);
      }
      if filled.title.Some? && IsTrimmed(filled.title.value) {
        TrimKeepsTrimmed(filled.title.value);
      }
      ghost var before := repo.rows;
      if !filled.IsEmpty() {
        if filled.title.Some? && filled.title.value != "" && IsTrimmed(filled.title.value) && UniqueTitles(before) {
          UpdateKeepsUniqueTitles(before, id, filled);
        }
        if CompletionDated(before) && now != "" && !ClearsCompletionDate(patch) {
          UpdateKeepsCompletionDated(before, id, filled);
        }
      }
      var updated := repo.Update(id, filled);
      r := Ok(updated);
    }

    /** `concluirTarefa`: None for a missing task, AlreadyCompleted for a
        finished one; otherwise marks it done with completion date now. */
    method CompleteTask(id: int, now: string) returns (r: Result<Option<Task>>)
      requires Valid()
      modifies repo
      ensures Valid()
      ensures id !in old(repo.rows) ==> r == Ok(None) && unchanged(repo)
      ensures id in old(repo.rows) && old(repo.rows)[id].completed != 0 ==>
        r == Err(AlreadyCompleted) && unchanged(repo)
      ensures id in old(repo.rows) && old(repo.rows)[id].completed == 0 ==>
        && repo.rows == old(repo.rows)[id := old(repo.rows)[id].(completedAt := Some(now), completed := 1)]
        && r == Ok(Some(ToTask(id, repo.rows[id])))
      ensures CompletionDated(old(repo.rows)) && now != "" ==> CompletionDated(repo.rows)
      ensures UniqueTitles(old(repo.rows)) ==> UniqueTitles(repo.rows)
    {
      var task := repo.FindById(id);
      if task.None? {
        return Ok(None);
      }
      if task.value.completed {
        return Err(AlreadyCompleted);
      }
      var done := repo.Update(id, Patch(None, None, None, Some(Some(now)), Some(true)));
      r := Ok(done);
    }

    /** `excluirTarefa`: true exactly when the task existed; it is gone
        afterwards and no other task changes. */
    method DeleteTask(id: int) returns (removed: bool)
      requires Valid()
      modifies repo
      ensures Valid()
      ensures removed <==> id in old(repo.rows)
      ensures repo.rows == old(repo.rows) - {id}
      ensures UniqueTitles(old(repo.rows)) ==> UniqueTitles(repo.rows)
      ensures CompletionDated(old(repo.rows)) ==> CompletionDated(repo.rows)
    {
      removed := repo.Delete(id);
    }
  }

  /** Completing a task twice: the first call succeeds on a pending task,
      and once it has succeeded the second call fails. */
  method CompleteTwice(service: TaskService, id: int, now1: string, now2: string)
    returns (first: Result<Option<Task>>, second: Result<Option<Task>>)
    requires service.Valid()
    modifies service.repo
    ensures service.Valid()
    ensures id in old(service.repo.rows) && old(service.repo.rows)[id].completed == 0 ==>
      first.Ok? && first.value.Some? && first.value.value.completed
    ensures first.Ok? && first.value.Some? ==> second == Err(AlreadyCompleted)
  {
    first := service.CompleteTask(id, now1);
    second := service.CompleteTask(id, now2);
  }

  /** Two accepted create requests whose titles trim to the same text: the
      second is refused as a duplicate. */
  method CreateSameTitleTwice(service: TaskService, a: CreateInput, b: CreateInput, now: string)
    returns (first: Result<Task>, second: Result<Task>)
    requires service.Valid()
    modifies service.repo
    ensures service.Valid()
    ensures (CreateError(a, service.parse).None? && CreateError(b, service.parse).None? &&
             Trim(a.title.s) == Trim(b.title.s)) ==> second == Err(DuplicateTitle)
  {
    first := service.CreateTask(a, now);
    second := service.CreateTask(b, now);
    if CreateError(a, service.parse).None? && CreateError(b, service.parse).None? && Trim(a.title.s) == Trim(b.title.s) {
      if first.Ok? {
        assert service.repo.rows[first.value.id].title == Trim(b.title.s);
      }
    }
  }

  /** Deleting a task and then asking for it gives None. */
  method DeleteThenGet(service: TaskService, id: int) returns (removed: bool, found: Option<Task>)
    requires service.Valid()
    modifies service.repo
    ensures service.Valid()
    ensures found.None?
  {
    removed := service.DeleteTask(id);
    found := service.GetTask(id);
  }

  /** The rename guard compares the untrimmed new title with the current
      one but looks up the trimmed title, while the untrimmed title is what
      gets stored: renaming task 1 to "X " when task 2 is already called
      "X " passes the guard and leaves two tasks with the same title. */
  lemma UntrimmedRenameDuplicatesTitle()
    ensures var rows := map[1 := Row("a", None, "t", None, 0), 2 := Row("X ", None, "t", None, 0)];
      var patch := Patch(Some("X "), None, None, None, None);
      && UniqueTitles(rows)
      && RenameChecked(patch, ToTask(1, rows[1]))
      && !TitleHeldByOther(rows, Trim("X "), 1)
      && !UniqueTitles(rows[1 := ApplyPatch(rows[1], patch)])
  {
    var rows := map[1 := Row("a", None, "t", None, 0), 2 := Row("X ", None, "t", None, 0)];
    var after := rows[1 := ApplyPatch(rows[1], Patch(Some("X "), None, None, None, None))];
    assert SkipStart("X ", 0) == 0;
    assert SkipEnd("X ", 0, 2) == 1;
    assert Trim("X ") == "X";
    assert rows[2].title != "X";
    assert UniqueTitles(rows);
    assert after[1].title == after[2].title;
  }

  /** A truthy-title test lets the empty title through: renaming two tasks
      to "" skips the rename guard both times and leaves them sharing a
      title, one that `criarTarefa` would refuse. */
  lemma EmptyRenameDuplicatesTitle()
    ensures var rows := map[1 := Row("a", None, "t", None, 0), 2 := Row("b", None, "t", None, 0)];
      var patch := Patch(Some(""), None, None, None, None);
      var once := rows[1 := ApplyPatch(rows[1], patch)];
      var twice := once[2 := ApplyPatch(once[2], patch)];
      && UniqueTitles(rows)
      && !RenameChecked(patch, ToTask(1, rows[1]))
      && !RenameChecked(patch, ToTask(2, once[2]))
      && UniqueTitles(once)
      && !UniqueTitles(twice)
      && !TitleGiven(Text(twice[1].title))
  {
    var rows := map[1 := Row("a", None, "t", None, 0), 2 := Row("b", None, "t", None, 0)];
    var patch := Patch(Some(""), None, None, None, None);
    var once := rows[1 := ApplyPatch(rows[1], patch)];
    var twice := once[2 := ApplyPatch(once[2], patch)];
    assert twice[1].title == twice[2].title;
  }

  /** An update that sets only completedAt, to null or to "", passes every
      guard and leaves a completed task without a completion date. */
  lemma ClearedCompletionDateUndatesTask(row: Row, cleared: Option<string>, parse: DateParser, now: string)
    requires row.completed != 0
    requires !Supplied(cleared)
    ensures var patch := Patch(None, None, None, Some(cleared), None);
      var filled := FillCompletedAt(patch, now);
      && filled == patch
      && ClearsCompletionDate(patch)
      && !CompletedAtUnparseable(patch, parse)
      && !CompletionPrecedesCreation(filled, ToTask(1, row), parse)
      && !RenameChecked(filled, ToTask(1, row))
      && !CompletionDated(map[1 := ApplyPatch(row, filled)])
  {
    var m := map[1 := ApplyPatch(row, Patch(None, None, None, Some(cleared), None))];
    assert m[1].completed != 0 && !Supplied(m[1].completedAt);
  }
}

=== FILE: taskmodel.dfy ===
/** The task entity in its two representations: the row stored in the
    "tarefas" table (completion flag as an integer) and the task callers see
    (completion flag as a boolean), the conversion between them, and the
    partial update ("patch") with the SET clauses it turns into.

    Field names: title = titulo, description = descricao,
    createdAt = dataCriacao, completedAt = dataConclusao,
    completed = concluida. */
module TaskModel {

  datatype Option<+T> = None | Some(value: T)

  /** One stored row, keyed by its id in the table. `completed` is the
      INTEGER column. */
  datatype Row = Row(
    title: string,
    description: Option<string>,
    createdAt: string,
    completedAt: Option<string>,
    completed: int)

  /** A task as the repository hands it out. */
  datatype Task = Task(
    id: int,
    title: string,
    description: Option<string>,
    createdAt: string,
    completedAt: Option<string>,
    completed: bool)

  /** The argument of `salvar`: a task without its id. */
  datatype NewTask = NewTask(
    title: string,
    description: Option<string>,
    createdAt: string,
    completedAt: Option<string>,
    completed: bool)

  /** A partial update: each field independently absent (None) or supplied
      (Some). For the nullable columns, Some(None) supplies an explicit null. */
  datatype Patch = Patch(
    title: Option<string>,
    description: Option<Option<string>>,
    createdAt: Option<string>,
    completedAt: Option<Option<string>>,
    completed: Option<bool>)
  {
    predicate IsEmpty() {
      title.None? && description.None? && createdAt.None? && completedAt.None? && completed.None?
    }
  }

  /** `concluida ? 1 : 0`, the boolean-to-INTEGER conversion on the way in. */
  function FlagToInt(b: bool): int {
    if b then 1 else 0
  }

  /** `Boolean(row.concluida)`, the INTEGER-to-boolean conversion on the way out. */
  predicate IntToFlag(n: int) {
    n != 0
  }

  /** The row of a task for a given id. */
  function ToTask(id: int, r: Row): Task {
    Task(id, r.title, r.description, r.createdAt, r.completedAt, IntToFlag(r.completed))
  }

  /** `_formatTarefa`: no row gives no task; a row gives the task with the
      same id and text fields and the flag read as a boolean. */
  function FormatTask(id: int, row: Option<Row>): (t: Option<Task>)
    ensures t.None? <==> row.None?
    ensures t.Some? ==>
      && t.value.id == id
      && t.value.title == row.value.title
      && t.value.description == row.value.description
      && t.value.createdAt == row.value.createdAt
      && t.value.completedAt == row.value.completedAt
      && (t.value.completed <==> row.value.completed != 0)
  {
    match row
    case None => None
    case Some(r) => Some(ToTask(id, r))
  }

  /** The row `salvar` inserts for its argument. */
  function RowOf(data: NewTask): Row {
    Row(data.title, data.description, data.createdAt, data.completedAt, FlagToInt(data.completed))
  }

  /** What `salvar` returns: its argument with the new id. */
  function TaskOf(id: int, data: NewTask): Task {
    Task(id, data.title, data.description, data.createdAt, data.completedAt, data.completed)
  }

  /** Reading back an inserted row gives back what was inserted: the 0/1
      encoding of the flag loses nothing. */
  lemma SavedRowReadsBack(id: int, data: NewTask)
    ensures FormatTask(id, Some(RowOf(data))) == Some(TaskOf(id, data))
    ensures IntToFlag(FlagToInt(data.completed)) == data.completed
  {
  }

  /** The reference meaning of a patch: every supplied field replaces the
      stored one, every other field is kept. */
  function ApplyPatch(r: Row, p: Patch): Row {
    Row(
      if p.title.Some? then p.title.value else r.title,
      if p.description.Some? then p.description.value else r.description,
      if p.createdAt.Some? then p.createdAt.value else r.createdAt,
      if p.completedAt.Some? then p.completedAt.value else r.completedAt,
      if p.completed.Some? then FlagToInt(p.completed.value) else r.completed)
  }

  /** The columns of the table that a patch may name, in declaration order. */
  datatype Column = Title | Description | CreatedAt | CompletedAt | Completed

  const Columns: seq<Column> := [Title, Description, CreatedAt, CompletedAt, Completed]

  /** One `column = ?` clause of the UPDATE statement, with its bound value. */
  datatype Assignment =
    | SetTitle(title: string)
    | SetDescription(description: Option<string>)
    | SetCreatedAt(createdAt: string)
    | SetCompletedAt(completedAt: Option<string>)
    | SetCompleted(completed: int)

  /** The clause a patch contributes for one column, if the column is
      supplied; a boolean flag is bound as 0/1. */
  function ClauseFor(p: Patch, c: Column): Option<Assignment> {
    match c
    case Title => if p.title.Some? then Some(SetTitle(p.title.value)) else None
    case Description => if p.description.Some? then Some(SetDescription(p.description.value)) else None
    case CreatedAt => if p.createdAt.Some? then Some(SetCreatedAt(p.createdAt.value)) else None
    case CompletedAt => if p.completedAt.Some? then Some(SetCompletedAt(p.completedAt.value)) else None
    case Completed => if p.completed.Some? then Some(SetCompleted(FlagToInt(p.completed.value))) else None
  }

  /** The clause for a column as a list of zero or one clauses. */
  function ClauseList(p: Patch, c: Column): seq<Assignment> {
    match ClauseFor(p, c)
    case None => []
    case Some(a) => [a]
  }

  /** The clauses for the supplied columns among the first n columns, in
      column order. */
  function ClausesUpTo(p: Patch, n: nat): seq<Assignment>
    requires n <= |Columns|
  {
    if n == 0 then [] else ClausesUpTo(p, n - 1) + ClauseList(p, Columns[n - 1])
  }

  /** The SET list of a whole patch. */
  function SetList(p: Patch): seq<Assignment> {
    ClausesUpTo(p, |Columns|)
  }

  /** The effect of one clause on a row. */
  function Assign(r: Row, a: Assignment): Row {
    match a
    case SetTitle(t) => r.(title := t)
    case SetDescription(d) => r.(description := d)
    case SetCreatedAt(c) => r.(createdAt := c)
    case SetCompletedAt(c) => r.(completedAt := c)
    case SetCompleted(n) => r.(completed := n)
  }

  /** The effect of a whole SET list on a row. */
  function AssignAll(r: Row, clauses: seq<Assignment>): Row
    decreases |clauses|
  {
    if clauses == [] then r else AssignAll(Assign(r, clauses[0]), clauses[1..])
  }

  /** Running two SET lists one after the other is running their
      concatenation. */
  lemma {:induction false} AssignAllConcat(r: Row, a: seq<Assignment>, b: seq<Assignment>)
    ensures AssignAll(r, a + b) == AssignAll(AssignAll(r, a), b)
    decreases |a|
  {
    if a == [] {
      assert a + b == b;
    } else {
      assert (a + b)[1..] == a[1..] + b;
      AssignAllConcat(Assign(r, a[0]), a[1..], b);
    }
  }

  /** Running the clause of one column, if any, on a row. */
  lemma AssignClauseList(r: Row, p: Patch, c: Column)
    ensures AssignAll(r, ClauseList(p, c)) ==
      match ClauseFor(p, c)
      case None => r
      case Some(a) => Assign(r, a)
  {
    if ClauseFor(p, c).Some? {
      assert ClauseList(p, c)[1..] == [];
    }
  }

  /** The SET list of a patch, column by column. */
  lemma SetListParts(p: Patch)
    ensures SetList(p) == ClauseList(p, Title) + ClauseList(p, Description) + ClauseList(p, CreatedAt)
      + ClauseList(p, CompletedAt) + ClauseList(p, Completed)
  {
    assert ClausesUpTo(p, 1) == [] + ClauseList(p, Title);
    assert ClausesUpTo(p, 2) == ClausesUpTo(p, 1) + ClauseList(p, Description);
    assert ClausesUpTo(p, 3) == ClausesUpTo(p, 2) + ClauseList(p, CreatedAt);
    assert ClausesUpTo(p, 4) == ClausesUpTo(p, 3) + ClauseList(p, CompletedAt);
    assert ClausesUpTo(p, 5) == ClausesUpTo(p, 4) + ClauseList(p, Completed);
    assert [] + ClauseList(p, Title) == ClauseList(p, Title);
  }

  /** Running the SET clauses built from a patch has exactly the reference
      effect of the patch. */
  lemma SetClausesApplyPatch(r: Row, p: Patch)
    ensures AssignAll(r, SetList(p)) == ApplyPatch(r, p)
  {
    var l1, l2, l3, l4, l5 := ClauseList(p, Title), ClauseList(p, Description),
      ClauseList(p, CreatedAt), ClauseList(p, CompletedAt), ClauseList(p, Completed);
    SetListParts(p);
    AssignAllConcat(r, l1 + l2 + l3 + l4, l5);
    AssignAllConcat(r, l1 + l2 + l3, l4);
    AssignAllConcat(r, l1 + l2, l3);
    AssignAllConcat(r, l1, l2);
    var r1 := AssignAll(r, l1);
    var r2 := AssignAll(r1, l2);
    var r3 := AssignAll(r2, l3);
    var r4 := AssignAll(r3, l4);
    AssignClauseList(r, p, Title);
    AssignClauseList(r1, p, Description);
    AssignClauseList(r2, p, CreatedAt);
    AssignClauseList(r3, p, CompletedAt);
    AssignClauseList(r4, p, Completed);
  }

  /** A patch yields no SET clause exactly when it supplies no field. */
  lemma NoClausesIffEmpty(p: Patch)
    ensures SetList(p) == [] <==> p.IsEmpty()
  {
    SetListParts(p);
  }

  /** An empty patch leaves a row as it is; a patch that supplies a field
      changes that field to the supplied value. */
  lemma ApplyPatchLaws(r: Row, p: Patch)
    ensures p.IsEmpty() ==> ApplyPatch(r, p) == r
    ensures p.title.Some? ==> ApplyPatch(r, p).title == p.title.value
    ensures p.completed.Some? ==> IntToFlag(ApplyPatch(r, p).completed) == p.completed.value
  {
  }
}
